=== FILE: README.md ===
# laborsim core in Dafny

This project models the sequential core of the laborsim labour-flow simulator
and proves properties of it. The core has four parts:

- **The event hub** (`events.js`). `addEvents` decorates an object with `on`, `trigger` and `off`.
  - The event types are fixed when the hub is attached. Each type keeps an ordered list of listeners.
  - `on` puts a listener at the front of its list.
  - `trigger` walks the list from the back. It calls every listener and drops those that return a truthy value.
  - `off` clears every list, clears one list, or removes the first copy of one listener.
  - Naming an undeclared type throws.
  - A listener is modelled as an identity plus the fixed truthiness of what it returns.
- **The firm network** (`model/network.js`). This is an undirected graph of firms stored as a map from each firm to its neighbours and link labels.
  - `firms`, `addFirm`, `addFirms` and `removeFirm` manage the firms.
  - `link` is overloaded by arity. It lists every link once, lists one firm's neighbours, reads one label, or sets and clears labels symmetrically.
  - Symmetry is proved to be kept by every operation that changes the graph.
  - Each change is returned together with the event payload it publishes.
- **The unemployment metric** (`metrics/unemployment.js`). It keeps a running Welford triple (n, mean, M2) over the unemployment rate of each step, plus a buffer of the samples.
  - It can clip the buffer to a sliding window.
  - The statistics are modelled over `real`. They are proved equal to the batch mean and the sum of squared deviations of exactly the samples the window keeps.
- **The step-delay controller** (`controllers/simulation.js`). It holds a delay between simulation ticks, clamped to [0, 1000], adjusted in steps of 50 by default.

The files:

- `results.dfy`: `Option` and `Result`.
- `seqs.dfy`: duplicate-freedom.
- `js_strings.dfy`: JavaScript's `<` on strings.
- `event_hub.dfy`: the hub.
- `firm_network.dfy`: the graph.
- `welford.dfy`: the running statistics and their algebra.
- `unemployment.dfy`: the metric built on them.
- `step_delay.dfy`: the controller.

The model follows the code in some places where it may surprise a reader:

- `addFirm` publishes `firms-add` even when the firm already exists.
- A link from a firm to itself is stored like any other link.
- `link()` lists edges as bare `{source, target}` pairs, without their labels.
- `timeWindow()` with no argument returns the number of samples held, not the window size.
- When `link(f1, targets, label)` throws at an unknown target, the links to the earlier targets have already been changed, and no `link-change` is published.

## Model

| member | source | states |
|---|---|---|
| EventHub.Attach | js/laborflows/events.js:157-162 | Attaching declares exactly the named types, each with an empty list, so the total count is 0 |
| EventHub.Count | js/laborflows/events.js:80-88 | `on(type)` without a callback throws exactly for an undeclared type, and then only the undeclared-type error; for a declared type it succeeds with the length of that type's list |
| EventHub.CountAll | js/laborflows/events.js:73-78 | `on()` sums the list lengths over the declared types: no declared list is longer than the total, and the total is 0 exactly when every declared list is empty |
| EventHub.CountAllCountsEveryList | js/laborflows/events.js:73-78 | `on()` counts across all types: no list is longer than the total, and the total is 0 exactly when every list is empty |
| EventHub.Subscribe | js/laborflows/events.js:80-86 | `on(type, cb)` throws exactly for an undeclared type, and then only the undeclared-type error; otherwise it succeeds, `cb` is put at the front of its type's list and handed back, and every other list is unchanged |
| EventHub.SubscribeAddsOne | js/laborflows/events.js:80-86 | On a well-formed hub, `on(type, cb)` for a declared type succeeds, keeps the hub well formed, and raises the total count by exactly one |
| EventHub.Publish | js/laborflows/events.js:103-125 | `trigger(type)` throws exactly for an undeclared type, and then only the undeclared-type error; for a declared type it succeeds, the listeners are called in reverse list order, the list keeps exactly the listeners that returned falsy in their order, and the number returned is how many remain |
| EventHub.ReverseIsPermutation | js/laborflows/events.js:119-123 | A dispatch calls every registered listener exactly once |
| EventHub.SurvivorsAreTheFalsyOnes | js/laborflows/events.js:120-123 | After a dispatch a listener remains exactly when it returned falsy, with as many copies as before; truthy ones are all gone |
| EventHub.SurvivorsAreStable | js/laborflows/events.js:120-123 | A second dispatch with the same outcomes removes nothing more |
| EventHub.OldestSubscribedCalledFirst | js/laborflows/events.js:83-123 | Because `on` prepends and dispatch runs backwards, listeners are called oldest subscription first, and new ones after everything already registered |
| EventHub.UnsubscribeAll | js/laborflows/events.js:130-135 | `off()` empties every list, keeps every type declared, and returns 0 |
| EventHub.UnsubscribeKind | js/laborflows/events.js:137-141 | `off(type)` throws exactly for an undeclared type, with the unknown-type error; otherwise it succeeds, empties only that type's list and returns its previous length |
| EventHub.UnsubscribeKindDropsCount | js/laborflows/events.js:137-141 | On a well-formed hub, `off(type)` for a declared type succeeds, keeps the hub well formed, and lowers the total count by exactly the length it returns |
| EventHub.UnsubscribeListener | js/laborflows/events.js:143-150 | `off(type, cb)` throws exactly for an undeclared type, with the unknown-type error; otherwise it succeeds, removes the first copy of `cb` from that type's list only, and returns the new length |
| EventHub.RemoveFirstRemovesFirstOccurrence | js/laborflows/events.js:144-150 | Removal takes out exactly the earliest copy of the listener, keeping everything around it, and is a no-op when the listener is absent |
| EventHub.RemoveFirstRemovesOneCopy | js/laborflows/events.js:144-147 | Removal takes away one copy of the listener and nothing else |
| FirmNetwork.Firms | js/laborflows/model/network.js:35-41 | `firms()` lists every firm and nothing else, each exactly once |
| FirmNetwork.AddFirm | js/laborflows/model/network.js:43-47 | `addFirm(f)` makes `f` a firm, changes no link, and publishes `firms-add` for `f` whether or not it existed |
| FirmNetwork.AddAll | js/laborflows/model/network.js:54-56 | The loop makes every listed id a firm and changes no link |
| FirmNetwork.AddFirms | js/laborflows/model/network.js:49-59 | `addFirms(fs)` makes every id in `fs` a firm, changes no link of any firm, and publishes one `firms-add` carrying `fs` |
| FirmNetwork.AddFirmKeepsSymmetry | js/laborflows/model/network.js:43-59 | Adding firms keeps the graph symmetric, and adding the same firm twice is the same as adding it once |
| FirmNetwork.RemoveFirm | js/laborflows/model/network.js:61-72 | `removeFirm(f)` of an unknown firm changes nothing and publishes nothing; otherwise exactly `f` stops being a firm and `firms-remove` is published with `[f]` |
| FirmNetwork.RemoveFirmEffect | js/laborflows/model/network.js:61-67 | In a symmetric graph, removal deletes exactly the links touching `f`, keeps the graph symmetric, and leaves no neighbour that is not a firm |
| FirmNetwork.RemoveUndoesAdd | js/laborflows/model/network.js:43-67 | Removing a firm that was just added gives back the original graph |
| FirmNetwork.SymmetricIsClosed | js/laborflows/model/network.js:61-66 | In a symmetric graph every neighbour of a firm is itself a firm, so the removal loop only touches existing maps |
| FirmNetwork.LinkAll | js/laborflows/model/network.js:76-85 | `link()` lists an edge `(x, y)` exactly when `x` links to `y` and `x < y` in JavaScript string order |
| FirmNetwork.LinkAllListsEachLinkOnce | js/laborflows/model/network.js:77-84 | In a symmetric graph `link()` lists each link between two different firms in exactly one orientation, and never a link of a firm to itself |
| FirmNetwork.LinkOf | js/laborflows/model/network.js:87-95 | `link(f1)` throws exactly when `f1` is unknown and otherwise returns exactly the firms linked from `f1` |
| FirmNetwork.LinkLabel | js/laborflows/model/network.js:87-102 | `link(f1, f2)` throws exactly when `f1` is unknown; otherwise it returns the stored label when `f2` is a neighbour and `false` when it is not |
| FirmNetwork.LinksReadBothWays | js/laborflows/model/network.js:90-102 | In a symmetric graph a label reads the same from either end, and each firm is the other's neighbour exactly when the reverse holds |
| FirmNetwork.SetPair | js/laborflows/model/network.js:107-113 | Setting or clearing one target changes the link in both directions and no other link |
| FirmNetwork.FirstUnknown | js/laborflows/model/network.js:105-106 | Finds the position where the loop throws: every earlier target is a firm and the one found is not |
| FirmNetwork.SetEach | js/laborflows/model/network.js:104-116 | The target loop throws exactly when some target is unknown, naming the first one; the links to the targets before it carry the new label and all other links are unchanged |
| FirmNetwork.SetLink | js/laborflows/model/network.js:87-117 | `link(f1, targets, label)` throws exactly when `f1` or a target is unknown; on success every link between `f1` and a target carries the label (or is gone for a falsy label), every other link is unchanged, and `link-change` carries `f1`, the targets and the label; a throw at a target names the first unknown one, after the links to the targets before it already carry the label |
| FirmNetwork.SetLinkKeepsSymmetry | js/laborflows/model/network.js:105-114 | Relabelling keeps a symmetric graph symmetric, also when it throws part-way |
| FirmNetwork.SetLinkThenRead | js/laborflows/model/network.js:97-113 | After a completed relabelling, reading the link between `f1` and any target from either end gives the new label |
| FirmNetwork.Link | js/laborflows/model/network.js:74-119 | `link` dispatches on its arity. `link()` lists exactly the ordered links. Every other form throws for an unknown `f1`, and more than three arguments throw. For a known `f1`, `link(f1)` returns exactly its neighbours and `link(f1, f2)` the stored label or `false`. Only the three-argument form changes the graph: it relabels the links to the targets up to the first unknown one, which it names when it throws, and otherwise publishes `link-change` with `f1`, the targets and the label |
| FirmNetwork.RelabelThenQuery | js/laborflows/model/network.js:87-113 | After a completed `link(f1, targets, label)`, `link(f1, t)` and `link(t, f1)` return the new label for every target `t`, and `link(f1)` lists `t` exactly when the label is truthy |
| JsStrings.LessIsStrictTotal | js/laborflows/model/network.js:80 | JavaScript's string `<` is irreflexive and asymmetric, and it orders any two different ids |
| JsStrings.LessTransitive | js/laborflows/model/network.js:80 | JavaScript's string `<` is transitive |
| Welford.AddPoint | js/laborflows/metrics/unemployment.js:30-35 | `_addPoint(x)` raises the count by one and the running sum (mean times count) by exactly `x` |
| Welford.RemovePoint | js/laborflows/metrics/unemployment.js:37-42 | `_removePoint(x)`, from at least two samples, lowers the count by one and the running sum by exactly `x` |
| Welford.UpdatePoint | js/laborflows/metrics/unemployment.js:44-50 | `_updatePoint(oldX, newX)`, from at least one sample, keeps the count and moves the running sum by exactly `newX - oldX` |
| Welford.AddMoments | js/laborflows/metrics/unemployment.js:30-35 | The forward update turns the statistics of (n, sum, sum of squares) into those with one more sample `x` |
| Welford.RemoveMoments | js/laborflows/metrics/unemployment.js:37-42 | From at least two samples, the inverse update takes a sample `x` back out of the count, sum and sum of squares |
| Welford.UpdateMoments | js/laborflows/metrics/unemployment.js:44-50 | From at least one sample, the replace update swaps `oldX` for `newX` in the sum and sum of squares and keeps the count |
| Welford.AddPointAppends | js/laborflows/metrics/unemployment.js:30-35 | If the triple summarizes `xs`, the forward update summarizes `xs` with `x` appended: mean = sum / n and M2 = sum of squared deviations |
| Welford.RemovePointDrops | js/laborflows/metrics/unemployment.js:37-42 | If the triple summarizes at least two samples, removing any one of them gives the statistics of the rest |
| Welford.UpdatePointReplaces | js/laborflows/metrics/unemployment.js:44-50 | If the triple summarizes `xs`, replacing one sample gives the statistics of `xs` with that sample replaced |
| Welford.RemoveUndoesAdd | js/laborflows/metrics/unemployment.js:30-42 | Removing the sample just added restores the triple |
| Welford.AddUndoesRemove | js/laborflows/metrics/unemployment.js:30-42 | Adding back the sample just removed restores the triple |
| UnemploymentMetrics.Recent | js/laborflows/metrics/unemployment.js:56-57 | The samples a window keeps: a suffix of the buffer, of the window's size when the buffer is at least that long, and the whole buffer when the window does not clip |
| UnemploymentMetrics.Rate | js/laborflows/metrics/unemployment.js:53 | A step's sample is the unemployed share of all workers, between 0 and 1 |
| UnemploymentMetrics.CurrentValue | js/laborflows/metrics/unemployment.js:61-66 | `value()` is the batch mean and sample variance of the buffered samples, with variance 0 below two samples |
| UnemploymentMetrics.SampleCount | js/laborflows/metrics/unemployment.js:70-71 | `timeWindow()` returns the number of samples held, which a clipping window bounds |
| UnemploymentMetrics.Reset | js/laborflows/metrics/unemployment.js:81-85 | `reset()` forgets every sample, keeps the window, and reports mean 0 and variance 0 |
| UnemploymentMetrics.Advance | js/laborflows/metrics/unemployment.js:54-57 | One step keeps the window size; when the count matches the buffer it still does afterwards, a clipping window still bounds the buffer, and the buffer is exactly the latest samples of the old buffer plus the new one that the window keeps |
| UnemploymentMetrics.OnStep | js/laborflows/metrics/unemployment.js:52-59 | A step keeps the window size and publishes `change` carrying the new `value()`; from exact statistics, the buffer becomes the latest samples the window keeps, the statistics stay exact, and `change` is the batch mean and sample variance of that buffer |
| UnemploymentMetrics.AdvanceKeepsRecentSamples | js/laborflows/metrics/unemployment.js:54-57 | One step keeps the statistics exact and the buffer equal to the samples the window keeps, oldest first |
| UnemploymentMetrics.AdvanceKeepsStatistics | js/laborflows/metrics/unemployment.js:54-57 | From exact statistics, folding the new sample in, and the oldest one out when the window overflows, leaves the exact statistics of the buffer |
| UnemploymentMetrics.StepsKeepStatistics | js/laborflows/metrics/unemployment.js:52-57 | Over any run of steps the triple stays the exact statistics of the buffer |
| UnemploymentMetrics.StepsKeepRecentSamples | js/laborflows/metrics/unemployment.js:52-57 | Over any run of steps the buffer holds exactly the latest samples the window keeps, in order |
| UnemploymentMetrics.Create | js/laborflows/metrics/unemployment.js:95-96 | The metric as constructed uses the given window or 0 (no clipping) and holds exactly the first step's sample, with exact statistics |
| UnemploymentMetrics.DropOldest | js/laborflows/metrics/unemployment.js:75 | Shifting out the oldest sample leaves the statistics of the remaining ones |
| UnemploymentMetrics.SetTimeWindow | js/laborflows/metrics/unemployment.js:70-79 | `timeWindow(tw)` sets the window; when it clips, the buffer becomes exactly its latest `tw` samples, with exact statistics |
| StepDelay.Clamp | js/laborflows/controllers/simulation.js:59-61 | A requested delay is brought into [0, 1000], unchanged when already inside |
| StepDelay.SetDelay | js/laborflows/controllers/simulation.js:57-68 | `stepDelay(s)` sets the delay to `s` clamped into [0, 1000]; exactly one `speedChange` with the delay and its fraction of the range is emitted exactly when the delay changes |
| StepDelay.IncreaseDelay | js/laborflows/controllers/simulation.js:70-76 | `increaseDelay(d)` (default 50, negative delegating to decrease) succeeds exactly when the delay plus `d` is in range, then moves the delay by exactly `d`; on failure nothing changes |
| StepDelay.DecreaseDelay | js/laborflows/controllers/simulation.js:78-84 | `decreaseDelay(d)` (default 50, negative delegating to increase) succeeds exactly when the delay minus `d` is in range, then moves the delay by exactly `d`; on failure nothing changes |
| StepDelay.DelayStaysInRange | js/laborflows/controllers/simulation.js:57-84 | From any delay in [0, 1000], any sequence of `stepDelay`, `increaseDelay` and `decreaseDelay` calls keeps the delay in that range |
| StepDelay.ConstructedDelayStaysInRange | js/laborflows/controllers/simulation.js:17-84 | From the constructed delay of 0, any sequence of delay calls keeps the delay in [0, 1000] |
| StepDelay.SetDelayIdempotent | js/laborflows/controllers/simulation.js:62-66 | Setting the same delay again changes nothing and emits no `speedChange` |
| StepDelay.IncreaseThenDecrease | js/laborflows/controllers/simulation.js:70-84 | A successful increase by `d` followed by a decrease by `d` succeeds and restores the delay |

## Left out

- Rendering, charts, the DOM and timers are not modelled: the views, the chart controllers, `setInterval`, and start/stop/running with its button handlers. `metrics/steadystate.js`, `js/main.js` and `app.js` are not modelled either.
- The hub's payload stamping of `type` and `eventSource` (`events.js:112-116`) and the `console.warn` calls are not modelled. Nothing here reads them.
- The `eventInt` wrapper is modelled as a plain number. `addApi` on callbacks and the per-type `obj.events` shortcuts are not modelled. They only forward to the same three operations.
- EventHub.Publish: a listener that subscribes or unsubscribes while it is being called is not modelled. Listeners are abstract values with a fixed outcome.
- Event kinds and firm ids that collide with JavaScript object-prototype keys (such as `toString`) are not modelled. The model treats every name as an ordinary key. The membership tests in `network.js` (lines 44, 55, 62, 87, 98 and 106) use `in`, which also sees inherited keys, so for such an id the source can take a firm for present when it is not.
- The network, the metric and the controller return their published payloads as values. They are not wired to a hub.
- FirmNetwork.Firms: the order of `for`-`in` enumeration is not modelled. The result is a duplicate-free list in an order the model leaves open. FirmNetwork.LinkAll and FirmNetwork.LinkOf return sets for the same reason.
- FirmNetwork.RemoveFirm: a neighbour that is not a firm would make the removal loop throw, and that case is not modelled. The case cannot arise, because every operation keeps the graph symmetric and symmetry makes every neighbour a firm (FirmNetwork.SymmetricIsClosed).
- Label cloning is not modelled; a label is an abstract value. Falsy labels (`false`, `0`, `""`, `null`, `undefined`) are all modelled as `None`.
- `dirLinks` (`network.js:122-129`) is not modelled. It pushes to an undeclared variable and cannot run as written.
- UnemploymentMetrics.Rate: requires a positive number of workers. With none, the rate is 0/0, which is NaN in JavaScript. NaN and infinities are outside a model over `real`.
- UnemploymentMetrics.OnStep: requires a positive number of workers, like `Rate`. With none, `_onStep` (`unemployment.js:53`) adds a NaN sample, and the mean and M2 stay NaN until `reset()`. That case is not modelled.
- UnemploymentMetrics.Create: requires a positive number of workers for the first step, for the same reason as `OnStep`.
- The statistics are exact over `real`; IEEE-754 double rounding is not modelled. In the doubles the program uses, `_addPoint` and `_removePoint` (`unemployment.js:30-42`) each round, so the exact facts proved here (Welford.RemoveUndoesAdd, Welford.AddUndoesRemove, and exact statistics after any run of sliding steps) hold only up to accumulated rounding error in the program.
- Welford.RemovePoint: requires at least two samples, which every caller guarantees. Removing the last sample divides by zero.
- Welford.UpdatePoint: requires at least one sample, and so does Welford.UpdateMoments. At zero samples `_updatePoint` divides by zero (`unemployment.js:47`). Nothing in `unemployment.js` calls `_updatePoint`, so no caller reaches that case.
- UnemploymentMetrics.SetTimeWindow: windows are integers. The source coerces with `+tw` (`unemployment.js:72`) and compares counts against the window (`unemployment.js:56`, `74-76`). A fractional window `x` above 1 therefore keeps `floor(x)` samples, so a window of 1.5 keeps one sample, which no integer window does. Fractional and NaN windows are not modelled.
- UnemploymentMetrics.Reset: the `reset` event it publishes carries no payload and is not returned.
- The metric's subscriptions to the network (`unemployment.js:87-99`, including `destroy`) are not modelled. Only the statistic is.
- StepDelay.SetDelay: delays are integers. Fractional, non-numeric and NaN arguments after `+s` coercion are not modelled.
- UTF-16 code units versus Unicode scalar values in the string order: `<` is modelled on Dafny characters.

=== FILE: event_hub.dfy ===
/** The publish/subscribe decorator of events.js: a closed set of event kinds,
    fixed when the hub is attached, each with an ordered list of listeners.
    A listener is an abstract callback whose return value ("remove me") is fixed. */
module EventHub {
  import opened Results
  import opened Seqs

  type EventKind = string

  /** A callback: an identity and the truthiness of what it returns when called. */
  datatype Callback = Callback(id: nat, removeMe: bool)

  /** The hub: the declared kinds in declaration order, without repetitions,
      and the listener list of each declared kind. */
  datatype Hub = Hub(kinds: seq<EventKind>, queues: map<EventKind, seq<Callback>>)

  /** The exceptions the hub throws, one per operation that checks the kind. */
  datatype Error =
    | SubscribeUndefined(kind: EventKind)
    | TriggerUndefined(kind: EventKind)
    | UnsubscribeUnknown(kind: EventKind)

  /** The result of `on(kind, callback)`: the new hub and the callback handed back. */
  datatype Subscribed = Subscribed(hub: Hub, token: Callback)

  /** The result of `trigger`: the new hub, the callbacks in the order they were
      called, and the number of listeners still registered for the kind. */
  datatype Published = Published(hub: Hub, calls: seq<Callback>, remaining: nat)

  /** The result of `off`: the new hub and the number it returns. */
  datatype Unsubscribed = Unsubscribed(hub: Hub, count: nat)

  /** Every declared kind has a list, listed once in `kinds`. */
  predicate WellFormed(h: Hub) {
    && Distinct(h.kinds)
    && (forall k :: k in h.queues ==> k in h.kinds)
    && (forall k :: k in h.kinds ==> k in h.queues)
  }

  /** The elements of `xs` in order of first occurrence, each once. */
  function Dedup(xs: seq<EventKind>): (r: seq<EventKind>)
    ensures Distinct(r)
    ensures forall x :: x in r <==> x in xs
    decreases |xs|
  {
    if |xs| == 0 then []
    else
      var d := Dedup(xs[..|xs| - 1]);
      var last := xs[|xs| - 1];
      assert forall x :: x in xs <==> x in xs[..|xs| - 1] || x == last by {
        assert xs == xs[..|xs| - 1] + [last];
      }
      if last in d then d else d + [last]
  }

  /** The total length of the lists of `ks` in `q`. */
  function SumLengths(ks: seq<EventKind>, q: map<EventKind, seq<Callback>>): nat
    decreases |ks|
  {
    if |ks| == 0 then 0
    else (if ks[0] in q then |q[ks[0]]| else 0) + SumLengths(ks[1..], q)
  }

  /** `on()`: the number of listeners over all declared kinds. No declared
      list is longer than the total, and the total is zero exactly when every
      declared list is empty. */
  function CountAll(h: Hub): (r: nat)
    ensures forall k :: k in h.kinds && k in h.queues ==> |h.queues[k]| <= r
    ensures r == 0 <==> forall k :: k in h.kinds && k in h.queues ==> h.queues[k] == []
  {
    SumLengthsBounds(h.kinds, h.queues);
    SumLengths(h.kinds, h.queues)
  }

  /** Attaching the hub: every named kind is declared, with no listeners. */
  function Attach(types: seq<EventKind>): (h: Hub)
    ensures WellFormed(h)
    ensures forall k :: k in h.queues <==> k in types
    ensures forall k :: k in h.queues ==> h.queues[k] == []
    ensures CountAll(h) == 0
  {
    var h := Hub(Dedup(types), map k | k in types :: []);
    NoListenersNoCount(h.kinds, h.queues);
    h
  }

  /** `on(kind)`: the number of listeners of a declared kind. */
  function Count(h: Hub, kind: EventKind): (r: Result<nat, Error>)
    ensures r.Err? <==> kind !in h.queues
    ensures r.Err? ==> r.error == SubscribeUndefined(kind)
    ensures r.Ok? ==> r.value == |h.queues[kind]|
  {
    if kind !in h.queues then Err(SubscribeUndefined(kind)) else Ok(|h.queues[kind]|)
  }

  /** `on(kind, cb)`: `cb` goes to the front of the list of `kind` and is
      handed back; no other list changes. */
  function Subscribe(h: Hub, kind: EventKind, cb: Callback): (r: Result<Subscribed, Error>)
    ensures r.Err? <==> kind !in h.queues
    ensures r.Err? ==> r.error == SubscribeUndefined(kind)
    ensures r.Ok? ==> r.value.token == cb
    ensures r.Ok? ==> r.value.hub.kinds == h.kinds
    ensures r.Ok? ==> r.value.hub.queues.Keys == h.queues.Keys
    ensures r.Ok? ==> r.value.hub.queues[kind] == [cb] + h.queues[kind]
    ensures r.Ok? ==> forall k :: k in h.queues && k != kind ==> r.value.hub.queues[k] == h.queues[k]
  {
    if kind !in h.queues then Err(SubscribeUndefined(kind))
    else Ok(Subscribed(h.(queues := h.queues[kind := [cb] + h.queues[kind]]), cb))
  }

  /** The listeners that stay registered after being called once: those that
      do not ask to be removed, in their original relative order. */
  function Survivors(q: seq<Callback>): (r: seq<Callback>)
    decreases |q|
  {
    if |q| == 0 then []
    else (if q[0].removeMe then [] else [q[0]]) + Survivors(q[1..])
  }

  function Reverse<T>(s: seq<T>): seq<T>
    decreases |s|
  {
    if |s| == 0 then [] else Reverse(s[1..]) + [s[0]]
  }

  /** `trigger(kind)`: walks the list of `kind` from its back to its front,
      calling every listener once and splicing out those that return truthy. */
  method Publish(h: Hub, kind: EventKind) returns (r: Result<Published, Error>)
    ensures r.Err? <==> kind !in h.queues
    ensures r.Err? ==> r.error == TriggerUndefined(kind)
    ensures r.Ok? ==> r.value.calls == Reverse(h.queues[kind])
    ensures r.Ok? ==> r.value.hub == h.(queues := h.queues[kind := Survivors(h.queues[kind])])
    ensures r.Ok? ==> r.value.remaining == |Survivors(h.queues[kind])|
  {
    if kind !in h.queues {
      return Err(TriggerUndefined(kind));
    }
    ghost var q := h.queues[kind];
    var queue := h.queues[kind];
    var len := |queue|;
    var calls := [];
    while len > 0
      invariant 0 <= len <= |q|
      invariant queue == q[..len] + Survivors(q[len..])
      invariant calls == Reverse(q[len..])
      decreases len
    {
      len := len - 1;
      assert q[len..][1..] == q[len + 1..];
      assert queue[len] == q[len];
      calls := calls + [queue[len]];
      if queue[len].removeMe {
        queue := queue[..len] + queue[len + 1..];
      }
      assert q[..len + 1] == q[..len] + [q[len]];
    }
    assert q[..0] == [] && q[0..] == q;
    assert queue == Survivors(q);
    return Ok(Published(h.(queues := h.queues[kind := queue]), calls, |queue|));
  }

  /** `off()`: every list is emptied; the call returns 0. */
  function UnsubscribeAll(h: Hub): (r: Unsubscribed)
    ensures r.hub.kinds == h.kinds
    ensures forall k :: k in r.hub.queues <==> k in h.queues
    ensures forall k :: k in r.hub.queues ==> r.hub.queues[k] == []
    ensures CountAll(r.hub) == 0 && r.count == 0
  {
    var h' := h.(queues := map k | k in h.queues :: []);
    NoListenersNoCount(h'.kinds, h'.queues);
    Unsubscribed(h', 0)
  }

  /** `off(kind)`: only the list of `kind` is emptied; the call returns its old length. */
  function UnsubscribeKind(h: Hub, kind: EventKind): (r: Result<Unsubscribed, Error>)
    ensures r.Err? <==> kind !in h.queues
    ensures r.Err? ==> r.error == UnsubscribeUnknown(kind)
    ensures r.Ok? ==> r.value.count == |h.queues[kind]|
    ensures r.Ok? ==> r.value.hub.kinds == h.kinds
    ensures r.Ok? ==> r.value.hub.queues.Keys == h.queues.Keys
    ensures r.Ok? ==> r.value.hub.queues[kind] == []
    ensures r.Ok? ==> forall k :: k in h.queues && k != kind ==> r.value.hub.queues[k] == h.queues[k]
  {
    if kind !in h.queues then Err(UnsubscribeUnknown(kind))
    else Ok(Unsubscribed(h.(queues := h.queues[kind := []]), |h.queues[kind]|))
  }

  /** The list `q` without the first occurrence of `cb`. */
  function RemoveFirst(q: seq<Callback>, cb: Callback): (r: seq<Callback>)
    decreases |q|
  {
    if |q| == 0 then []
    else if q[0] == cb then q[1..]
    else [q[0]] + RemoveFirst(q[1..], cb)
  }

  /** `off(kind, cb)`: removes the first occurrence of `cb` from the list of
      `kind`, if any, and returns the list's new length. */
  function UnsubscribeListener(h: Hub, kind: EventKind, cb: Callback): (r: Result<Unsubscribed, Error>)
    ensures r.Err? <==> kind !in h.queues
    ensures r.Err? ==> r.error == UnsubscribeUnknown(kind)
    ensures r.Ok? ==> r.value.hub == h.(queues := h.queues[kind := RemoveFirst(h.queues[kind], cb)])
    ensures r.Ok? ==> r.value.count == |r.value.hub.queues[kind]|
  {
    if kind !in h.queues then Err(UnsubscribeUnknown(kind))
    else
      var q' := RemoveFirst(h.queues[kind], cb);
      Ok(Unsubscribed(h.(queues := h.queues[kind := q']), |q'|))
  }

  // ----- Lemmas -----

  lemma {:induction false} NoListenersNoCount(ks: seq<EventKind>, q: map<EventKind, seq<Callback>>)
    requires forall k :: k in q ==> q[k] == []
    ensures SumLengths(ks, q) == 0
    decreases |ks|
  {
    if |ks| > 0 {
      NoListenersNoCount(ks[1..], q);
    }
  }

  /** The total bounds every listed length and is zero exactly when all listed lists are empty. */
  lemma {:induction false} SumLengthsBounds(ks: seq<EventKind>, q: map<EventKind, seq<Callback>>)
    ensures forall k :: k in ks && k in q ==> |q[k]| <= SumLengths(ks, q)
    ensures SumLengths(ks, q) == 0 <==> forall k :: k in ks && k in q ==> q[k] == []
    decreases |ks|
  {
    if |ks| > 0 {
      SumLengthsBounds(ks[1..], q);
      assert forall k :: k in ks <==> k == ks[0] || k in ks[1..] by {
        assert ks == [ks[0]] + ks[1..];
      }
    }
  }

  /** `on()` counts every listener: no list is longer than the total, and the
      total is zero exactly when every list is empty. */
  lemma {:induction false} CountAllCountsEveryList(h: Hub)
    requires WellFormed(h)
    ensures forall k :: k in h.queues ==> |h.queues[k]| <= CountAll(h)
    ensures CountAll(h) == 0 <==> forall k :: k in h.queues ==> h.queues[k] == []
  {
    SumLengthsBounds(h.kinds, h.queues);
  }

  /** `on(kind, cb)` keeps the hub well formed and adds one to the total count. */
  lemma {:induction false} SubscribeAddsOne(h: Hub, kind: EventKind, cb: Callback)
    requires WellFormed(h) && kind in h.queues
    ensures Subscribe(h, kind, cb).Ok?
    ensures WellFormed(Subscribe(h, kind, cb).value.hub)
    ensures CountAll(Subscribe(h, kind, cb).value.hub) == CountAll(h) + 1
  {
    SumLengthsUpdate(h.kinds, h.queues, kind, [cb] + h.queues[kind]);
  }

  /** `off(kind)` keeps the hub well formed and takes the returned count off the total. */
  lemma {:induction false} UnsubscribeKindDropsCount(h: Hub, kind: EventKind)
    requires WellFormed(h) && kind in h.queues
    ensures UnsubscribeKind(h, kind).Ok?
    ensures WellFormed(UnsubscribeKind(h, kind).value.hub)
    ensures CountAll(UnsubscribeKind(h, kind).value.hub) == CountAll(h) - UnsubscribeKind(h, kind).value.count
  {
    SumLengthsUpdate(h.kinds, h.queues, kind, []);
  }

  /** Replacing the list of one kind changes the total by the difference in length. */
  lemma {:induction false} SumLengthsUpdate(ks: seq<EventKind>, q: map<EventKind, seq<Callback>>,
                                            k: EventKind, v: seq<Callback>)
    requires Distinct(ks) && k in q
    ensures k in ks ==> SumLengths(ks, q[k := v]) == SumLengths(ks, q) - |q[k]| + |v|
    ensures k !in ks ==> SumLengths(ks, q[k := v]) == SumLengths(ks, q)
    decreases |ks|
  {
    if |ks| > 0 {
      assert Distinct(ks[1..]);
      SumLengthsUpdate(ks[1..], q, k, v);
      if ks[0] == k {
        assert k !in ks[1..] by {
          forall i | 0 <= i < |ks[1..]| ensures ks[1..][i] != k {
            assert ks[1..][i] == ks[i + 1];
          }
        }
      } else {
        assert k in ks ==> k in ks[1..] by {
          if k in ks {
            var i :| 0 <= i < |ks| && ks[i] == k;
            assert ks[1..][i - 1] == k;
          }
        }
      }
    }
  }

  /** Each listener is called exactly once by a dispatch. */
  lemma {:induction false} ReverseIsPermutation<T>(s: seq<T>)
    ensures |Reverse(s)| == |s|
    ensures multiset(Reverse(s)) == multiset(s)
    decreases |s|
  {
    if |s| > 0 {
      ReverseIsPermutation(s[1..]);
      assert s == [s[0]] + s[1..];
    }
  }

  /** The survivors of a dispatch are a subsequence of the list: exactly the
      listeners returning falsy, each as often as before. */
  lemma {:induction false} SurvivorsAreTheFalsyOnes(q: seq<Callback>)
    ensures forall c :: c in Survivors(q) <==> c in q && !c.removeMe
    ensures forall c: Callback :: !c.removeMe ==> multiset(Survivors(q))[c] == multiset(q)[c]
    ensures forall c: Callback :: c.removeMe ==> multiset(Survivors(q))[c] == 0
    decreases |q|
  {
    if |q| > 0 {
      SurvivorsAreTheFalsyOnes(q[1..]);
      assert q == [q[0]] + q[1..];
    }
  }

  /** Dispatching a second time calls only the survivors and removes nobody. */
  lemma {:induction false} SurvivorsAreStable(q: seq<Callback>)
    ensures Survivors(Survivors(q)) == Survivors(q)
    decreases |q|
  {
    if |q| > 0 {
      SurvivorsAreStable(q[1..]);
      var rest := Survivors(q[1..]);
      if q[0].removeMe {
        assert Survivors(q) == rest;
      } else {
        var s := [q[0]] + rest;
        assert Survivors(q) == s;
        assert s[0] == q[0] && s[1..] == rest;
        assert Survivors(s) == [q[0]] + Survivors(rest);
      }
    }
  }

  /** Subscribes `cbs` to `kind` one after another. */
  function SubscribeEach(h: Hub, kind: EventKind, cbs: seq<Callback>): (r: Hub)
    requires kind in h.queues
    ensures r.queues.Keys == h.queues.Keys
    decreases |cbs|
  {
    if |cbs| == 0 then h
    else SubscribeEach(Subscribe(h, kind, cbs[0]).value.hub, kind, cbs[1..])
  }

  /** Because `on` prepends and `trigger` walks backwards, listeners are called
      oldest-subscribed first: callbacks subscribed in order `cbs` are called in
      that order, after those already registered. */
  lemma {:induction false} OldestSubscribedCalledFirst(h: Hub, kind: EventKind, cbs: seq<Callback>)
    requires kind in h.queues
    ensures Reverse(SubscribeEach(h, kind, cbs).queues[kind]) == Reverse(h.queues[kind]) + cbs
    decreases |cbs|
  {
    if |cbs| > 0 {
      var h1 := Subscribe(h, kind, cbs[0]).value.hub;
      OldestSubscribedCalledFirst(h1, kind, cbs[1..]);
      var q := h.queues[kind];
      assert ([cbs[0]] + q)[1..] == q;
      assert Reverse([cbs[0]] + q) == Reverse(q) + [cbs[0]];
      assert [cbs[0]] + cbs[1..] == cbs;
    }
  }

  /** The position of the first occurrence of `cb` in `q`. */
  function FirstIndex(q: seq<Callback>, cb: Callback): (i: nat)
    requires cb in q
    ensures i < |q| && q[i] == cb && cb !in q[..i]
    decreases |q|
  {
    if q[0] == cb then 0
    else
      assert cb in q[1..] by { assert q == [q[0]] + q[1..]; }
      var j := FirstIndex(q[1..], cb);
      assert q[..j + 1] == [q[0]] + q[1..][..j];
      j + 1
  }

  /** `off(kind, cb)` removes exactly the first occurrence of a present `cb`,
      keeping the order of the others, and changes nothing when `cb` is absent. */
  lemma {:induction false} RemoveFirstRemovesFirstOccurrence(q: seq<Callback>, cb: Callback)
    ensures cb !in q ==> RemoveFirst(q, cb) == q
    ensures cb in q ==> RemoveFirst(q, cb) == q[..FirstIndex(q, cb)] + q[FirstIndex(q, cb) + 1..]
    decreases |q|
  {
    if |q| > 0 {
      RemoveFirstRemovesFirstOccurrence(q[1..], cb);
      assert q == [q[0]] + q[1..];
      if q[0] != cb && cb in q {
        RemoveFirstPastHead(q, cb);
      }
    }
  }

  /** The step of the previous lemma where the first copy lies past the head. */
  lemma {:induction false} RemoveFirstPastHead(q: seq<Callback>, cb: Callback)
    requires |q| > 0 && q[0] != cb && cb in q[1..]
    requires RemoveFirst(q[1..], cb) == q[1..][..FirstIndex(q[1..], cb)] + q[1..][FirstIndex(q[1..], cb) + 1..]
    ensures RemoveFirst(q, cb) == q[..FirstIndex(q, cb)] + q[FirstIndex(q, cb) + 1..]
  {
    var t := q[1..];
    var j := FirstIndex(t, cb);
    assert FirstIndex(q, cb) == j + 1;
    assert RemoveFirst(q, cb) == [q[0]] + (t[..j] + t[j + 1..]);
    assert q[..j + 1] == [q[0]] + t[..j];
    assert q[j + 2..] == t[j + 1..];
  }

  /** `off(kind, cb)` takes away one copy of `cb` and nothing else. */
  lemma {:induction false} RemoveFirstRemovesOneCopy(q: seq<Callback>, cb: Callback)
    ensures multiset(RemoveFirst(q, cb)) == multiset(q) - multiset{cb}
    decreases |q|
  {
    if |q| > 0 {
      RemoveFirstRemovesOneCopy(q[1..], cb);
      assert q == [q[0]] + q[1..];
      assert multiset(q) == multiset{q[0]} + multiset(q[1..]);
      if q[0] != cb {
        assert multiset(RemoveFirst(q, cb)) == multiset{q[0]} + multiset(RemoveFirst(q[1..], cb));
      }
    }
  }
}

=== FILE: firm_network.dfy ===
/** The network of firms (model/network.js): an undirected graph stored as a
    map from each firm to the labels of its links, kept symmetric by every
    operation that changes it. Changes are reported as the events the network
    publishes on its hub. */
module FirmNetwork {
  import opened Results
  import opened Seqs
  import JsStrings

  type FirmId = string

  /** A link label: any truthy value, represented by a string. A falsy label
      argument means "no link" and is modelled as `None`. */
  datatype Label = Label(data: string)

  /** Each firm's links, from the firm to its neighbours and their labels. */
  type AdjMap = map<FirmId, map<FirmId, Label>>

  /** A link as listed by `link()`: its two ends, with no label. */
  datatype Edge = Edge(source: FirmId, target: FirmId)

  datatype Error =
    | UnknownFirm(id: FirmId)
    | WrongArguments

  /** The payloads the network publishes: `firms-add`, `firms-remove`, `link-change`. */
  datatype Event =
    | FirmAdded(added: FirmId)
    | FirmsAdded(ids: seq<FirmId>)
    | FirmsRemoved(removed: seq<FirmId>)
    | LinkChanged(source: FirmId, targets: seq<FirmId>, lab: Option<Label>)

  /** A change of the graph and the events it publishes. */
  datatype Changed = Changed(graph: AdjMap, events: seq<Event>)

  /** The outcome of relabelling links: either every link was set and the
      change is published, or a firm was unknown and the exception leaves
      the updates made before it in place, unpublished. */
  datatype LinkOutcome =
    | Linked(graph: AdjMap, event: Event)
    | Threw(graph: AdjMap, error: Error)

  /** The label of the link from `x` to `y`, if there is one. */
  function LabelOf(g: AdjMap, x: FirmId, y: FirmId): Option<Label> {
    if x in g && y in g[x] then Some(g[x][y]) else None
  }

  /** The graph is undirected: a link and its reverse carry the same label. */
  ghost predicate Symmetric(g: AdjMap) {
    forall x, y :: LabelOf(g, x, y) == LabelOf(g, y, x)
  }

  /** Every neighbour of a firm is itself a firm. */
  ghost predicate Closed(g: AdjMap) {
    forall x, y :: LabelOf(g, x, y).Some? ==> y in g
  }

  /** The two graphs hold the same links with the same labels. */
  ghost predicate SameLinks(g: AdjMap, h: AdjMap) {
    forall x, y :: LabelOf(g, x, y) == LabelOf(h, x, y)
  }

  // ----- Firms -----

  /** `firms()`: every firm once, in an order the model leaves open. */
  method Firms(g: AdjMap) returns (fs: seq<FirmId>)
    ensures Distinct(fs)
    ensures forall f :: f in fs <==> f in g
  {
    fs := [];
    var rest := g.Keys;
    while rest != {}
      invariant rest <= g.Keys
      invariant Distinct(fs)
      invariant forall f :: f in fs ==> f in g && f !in rest
      invariant forall f :: f in g ==> f in fs || f in rest
      decreases |rest|
    {
      var f :| f in rest;
      fs := fs + [f];
      rest := rest - {f};
    }
  }

  /** `addFirm(f)`: adds `f` with no links unless it is already there, and
      publishes `firms-add` either way. */
  function AddFirm(g: AdjMap, f: FirmId): (r: Changed)
    ensures r.graph.Keys == g.Keys + {f}
    ensures SameLinks(r.graph, g)
    ensures r.events == [FirmAdded(f)]
  {
    Changed(if f in g then g else g[f := map[]], [FirmAdded(f)])
  }

  /** Adds each of `fs` that is not yet a firm. */
  function AddAll(g: AdjMap, fs: seq<FirmId>): (r: AdjMap)
    ensures r.Keys == g.Keys + set f | f in fs
    ensures SameLinks(r, g)
    decreases |fs|
  {
    if |fs| == 0 then g else AddAll(AddFirm(g, fs[0]).graph, fs[1..])
  }

  /** `addFirms(fs)`: adds the firms not yet present and publishes one
      `firms-add` carrying the whole list as given. */
  function AddFirms(g: AdjMap, fs: seq<FirmId>): (r: Changed)
    ensures r.graph.Keys == g.Keys + set f | f in fs
    ensures SameLinks(r.graph, g)
    ensures r.events == [FirmsAdded(fs)]
  {
    Changed(AddAll(g, fs), [FirmsAdded(fs)])
  }

  /** `removeFirm(f)`: drops `f` and its links from each of its neighbours and
      publishes `firms-remove`; an unknown firm only draws a warning. */
  function RemoveFirm(g: AdjMap, f: FirmId): (r: Changed)
    ensures f !in g ==> r == Changed(g, [])
    ensures f in g ==> r.graph.Keys == g.Keys - {f} && r.events == [FirmsRemoved([f])]
  {
    if f !in g then Changed(g, [])
    else
      var h := map k | k in g && k != f :: if k in g[f] then g[k] - {f} else g[k];
      Changed(h, [FirmsRemoved([f])])
  }

  // ----- Links -----

  /** `link()` and `links()`: each link once, oriented from the smaller to
      the larger id under JavaScript's string order. */
  function LinkAll(g: AdjMap): (r: set<Edge>)
    ensures forall e :: e in r ==> JsStrings.Less(e.source, e.target) && LabelOf(g, e.source, e.target).Some?
    ensures forall x, y :: Edge(x, y) in r <==> LabelOf(g, x, y).Some? && JsStrings.Less(x, y)
  {
    set x, y | x in g && y in g[x] && JsStrings.Less(x, y) :: Edge(x, y)
  }

  /** `link(f1)`: the neighbours of `f1`; unknown firms throw. */
  function LinkOf(g: AdjMap, f1: FirmId): (r: Result<set<FirmId>, Error>)
    ensures r.Err? <==> f1 !in g
    ensures r.Err? ==> r.error == UnknownFirm(f1)
    ensures r.Ok? ==> forall y :: y in r.value <==> LabelOf(g, f1, y).Some?
  {
    if f1 !in g then Err(UnknownFirm(f1)) else Ok(g[f1].Keys)
  }

  /** `link(f1, f2)`: the label of the link, or nothing (`false`); only an
      unknown `f1` throws. */
  function LinkLabel(g: AdjMap, f1: FirmId, f2: FirmId): (r: Result<Option<Label>, Error>)
    ensures r.Err? <==> f1 !in g
    ensures r.Err? ==> r.error == UnknownFirm(f1)
    ensures r.Ok? ==> (r.value.Some? <==> f2 in g[f1])
    ensures r.Ok? && r.value.Some? ==> f2 in g[f1] && r.value.value == g[f1][f2]
  {
    if f1 !in g then Err(UnknownFirm(f1))
    else if f2 in g[f1] then Ok(Some(g[f1][f2]))
    else Ok(None)
  }

  /** Whether relabelling `f1` against `ts` touches the pair (x, y). */
  predicate Touches(f1: FirmId, ts: seq<FirmId>, x: FirmId, y: FirmId) {
    (x == f1 && y in ts) || (y == f1 && x in ts)
  }

  /** Sets, or with no label removes, the link between `a` and `b` in both directions. */
  function SetPair(g: AdjMap, a: FirmId, b: FirmId, lab: Option<Label>): (r: AdjMap)
    requires a in g && b in g
    ensures r.Keys == g.Keys
    ensures forall x, y :: LabelOf(r, x, y) == if (x == a && y == b) || (x == b && y == a) then lab else LabelOf(g, x, y)
  {
    match lab
    case Some(l) =>
      var h := g[a := g[a][b := l]];
      h[b := h[b][a := l]]
    case None =>
      var h := g[a := g[a] - {b}];
      h[b := h[b] - {a}]
  }

  /** The position of the first target that is not a firm, or the length of
      `ts` when they all are. */
  function FirstUnknown(g: AdjMap, ts: seq<FirmId>): (k: nat)
    ensures k <= |ts|
    ensures forall i :: 0 <= i < k ==> ts[i] in g
    ensures k < |ts| ==> ts[k] !in g
    decreases |ts|
  {
    if |ts| == 0 || ts[0] !in g then 0 else 1 + FirstUnknown(g, ts[1..])
  }

  /** Relabels `f1` against each target in turn, stopping with an exception
      at the first target that is not a firm. */
  function SetEach(g: AdjMap, f1: FirmId, ts: seq<FirmId>, lab: Option<Label>, all: seq<FirmId>): (r: LinkOutcome)
    requires f1 in g
    ensures r.graph.Keys == g.Keys
    ensures r.Threw? <==> FirstUnknown(g, ts) < |ts|
    ensures r.Threw? ==> r.error == UnknownFirm(ts[FirstUnknown(g, ts)])
    ensures r.Linked? ==> r.event == LinkChanged(f1, all, lab)
    ensures forall x, y :: LabelOf(r.graph, x, y) ==
                            (if Touches(f1, ts[..FirstUnknown(g, ts)], x, y) then lab else LabelOf(g, x, y))
    decreases |ts|
  {
    if |ts| == 0 then Linked(g, LinkChanged(f1, all, lab))
    else if ts[0] !in g then Threw(g, UnknownFirm(ts[0]))
    else
      var r := SetEach(SetPair(g, f1, ts[0], lab), f1, ts[1..], lab, all);
      assert ts[..FirstUnknown(g, ts)] == [ts[0]] + ts[1..][..FirstUnknown(g, ts[1..])];
      r
  }

  /** `link(f1, targets, label)`: sets or removes the link from `f1` to each
      target, then publishes `link-change`; an unknown target throws, naming
      the first one and keeping the links set before it. */
  function SetLink(g: AdjMap, f1: FirmId, ts: seq<FirmId>, lab: Option<Label>): (r: LinkOutcome)
    ensures r.graph.Keys == g.Keys
    ensures r.Threw? <==> f1 !in g || exists t :: t in ts && t !in g
    ensures f1 !in g ==> r == Threw(g, UnknownFirm(f1))
    ensures f1 in g ==> (r.Threw? <==> FirstUnknown(g, ts) < |ts|)
    ensures f1 in g && r.Threw? ==> r.error == UnknownFirm(ts[FirstUnknown(g, ts)])
    ensures f1 in g ==> forall x, y :: LabelOf(r.graph, x, y) ==
                                        (if Touches(f1, ts[..FirstUnknown(g, ts)], x, y) then lab else LabelOf(g, x, y))
    ensures r.Linked? ==> r.event == LinkChanged(f1, ts, lab)
    ensures r.Linked? ==> forall x, y :: LabelOf(r.graph, x, y) ==
                                          (if Touches(f1, ts, x, y) then lab else LabelOf(g, x, y))
  {
    if f1 !in g then Threw(g, UnknownFirm(f1))
    else
      var r := SetEach(g, f1, ts, lab, ts);
      var k := FirstUnknown(g, ts);
      assert k < |ts| ==> ts[k] in ts;
      assert k == |ts| ==> ts[..k] == ts;
      r
  }

  /** The shapes `link` accepts: no arguments, one, two or three, and more. */
  datatype LinkCall =
    | AllLinks
    | NeighborsOf(f1: FirmId)
    | LabelBetween(f1: FirmId, f2: FirmId)
    | Relabel(f1: FirmId, targets: seq<FirmId>, lab: Option<Label>)
    | TooManyArguments(f1: FirmId)

  /** What `link` returns, or the exception it throws with the graph it leaves. */
  datatype LinkReply =
    | Edges(edges: set<Edge>)
    | Neighbors(ids: set<FirmId>)
    | LabelFound(found: Option<Label>)
    | Relabelled(graph: AdjMap, event: Event)
    | Failed(graph: AdjMap, error: Error)

  /** `link(...)`: dispatches on the number of arguments; every shape but the
      empty one first requires `f1` to be a firm. */
  function Link(g: AdjMap, call: LinkCall): (r: LinkReply)
    ensures call.AllLinks? ==> r.Edges?
    ensures !call.AllLinks? && call.f1 !in g ==> r == Failed(g, UnknownFirm(call.f1))
    ensures call.TooManyArguments? && call.f1 in g ==> r == Failed(g, WrongArguments)
    ensures !call.Relabel? ==> !r.Relabelled? && (r.Failed? ==> r.graph == g)
    ensures call.AllLinks? ==> forall x, y :: Edge(x, y) in r.edges <==> LabelOf(g, x, y).Some? && JsStrings.Less(x, y)
    ensures call.NeighborsOf? && call.f1 in g ==> r.Neighbors? && forall y :: y in r.ids <==> LabelOf(g, call.f1, y).Some?
    ensures call.LabelBetween? && call.f1 in g ==> r == LabelFound(LabelOf(g, call.f1, call.f2))
    ensures call.Relabel? && r.Relabelled? ==> r.event == LinkChanged(call.f1, call.targets, call.lab)
    ensures call.Relabel? && call.f1 in g ==> (r.Failed? <==> FirstUnknown(g, call.targets) < |call.targets|)
    ensures call.Relabel? && call.f1 in g && r.Failed? ==>
              r.error == UnknownFirm(call.targets[FirstUnknown(g, call.targets)])
    ensures call.Relabel? && call.f1 in g ==> r.Relabelled? || r.Failed?
    ensures call.Relabel? && call.f1 in g ==>
              forall x, y :: (LabelOf(r.graph, x, y) ==
                (if Touches(call.f1, call.targets[..FirstUnknown(g, call.targets)], x, y) then call.lab else LabelOf(g, x, y)))
  {
    match call
    case AllLinks => Edges(LinkAll(g))
    case NeighborsOf(f1) =>
      (match LinkOf(g, f1) case Ok(ids) => Neighbors(ids) case Err(e) => Failed(g, e))
    case LabelBetween(f1, f2) =>
      (match LinkLabel(g, f1, f2) case Ok(l) => LabelFound(l) case Err(e) => Failed(g, e))
    case Relabel(f1, ts, lab) =>
      (match SetLink(g, f1, ts, lab) case Linked(h, ev) => Relabelled(h, ev) case Threw(h, e) => Failed(h, e))
    case TooManyArguments(f1) =>
      if f1 !in g then Failed(g, UnknownFirm(f1)) else Failed(g, WrongArguments)
  }

  // ----- Lemmas -----

  /** In a symmetric graph every neighbour is a firm. */
  lemma {:induction false} SymmetricIsClosed(g: AdjMap)
    requires Symmetric(g)
    ensures Closed(g)
  {
    forall x, y | LabelOf(g, x, y).Some?
      ensures y in g
    {
      assert LabelOf(g, y, x).Some?;
    }
  }

  /** Adding firms keeps the graph symmetric, and adding a firm twice is adding it once. */
  lemma {:induction false} AddFirmKeepsSymmetry(g: AdjMap, f: FirmId, fs: seq<FirmId>)
    requires Symmetric(g)
    ensures Symmetric(AddFirm(g, f).graph)
    ensures Symmetric(AddFirms(g, fs).graph)
    ensures AddFirm(AddFirm(g, f).graph, f).graph == AddFirm(g, f).graph
  {
    var h := AddFirm(g, f).graph;
    var k := AddFirms(g, fs).graph;
    forall x, y
      ensures LabelOf(h, x, y) == LabelOf(h, y, x)
      ensures LabelOf(k, x, y) == LabelOf(k, y, x)
    {
      assert LabelOf(g, x, y) == LabelOf(g, y, x);
    }
  }

  /** Removing a firm from a symmetric graph removes exactly its links, keeps
      the graph symmetric, and leaves no link to the removed firm. */
  lemma {:induction false} RemoveFirmEffect(g: AdjMap, f: FirmId)
    requires Symmetric(g)
    ensures Symmetric(RemoveFirm(g, f).graph)
    ensures Closed(RemoveFirm(g, f).graph)
    ensures forall x, y :: LabelOf(RemoveFirm(g, f).graph, x, y) ==
                            (if x == f || y == f then None else LabelOf(g, x, y))
  {
    var h := RemoveFirm(g, f).graph;
    forall x, y
      ensures LabelOf(h, x, y) == if x == f || y == f then None else LabelOf(g, x, y)
    {
      assert LabelOf(g, x, y) == LabelOf(g, y, x);
      if f in g && x in g && x != f && y == f && f in g[x] {
        assert LabelOf(g, f, x).Some?;
      }
    }
    forall x, y
      ensures LabelOf(h, x, y) == LabelOf(h, y, x)
    {
      assert LabelOf(g, x, y) == LabelOf(g, y, x);
    }
    forall x, y | LabelOf(h, x, y).Some?
      ensures y in h
    {
      assert LabelOf(g, y, x).Some?;
    }
  }

  /** Removing a firm that was just added gives back the graph. */
  lemma {:induction false} RemoveUndoesAdd(g: AdjMap, f: FirmId)
    requires f !in g
    ensures RemoveFirm(AddFirm(g, f).graph, f).graph == g
  {
    var h := AddFirm(g, f).graph;
    var r := RemoveFirm(h, f).graph;
    assert h[f] == map[];
    assert r.Keys == g.Keys;
    forall k | k in r
      ensures r[k] == g[k]
    {
      assert k != f && k in g && k !in h[f];
    }
  }

  /** In a symmetric graph `link()` lists each link between two different
      firms exactly once, and never a link of a firm to itself. */
  lemma {:induction false} LinkAllListsEachLinkOnce(g: AdjMap, x: FirmId, y: FirmId)
    requires Symmetric(g)
    ensures Edge(x, x) !in LinkAll(g)
    ensures x != y ==> (LabelOf(g, x, y).Some? <==> Edge(x, y) in LinkAll(g) || Edge(y, x) in LinkAll(g))
    ensures !(Edge(x, y) in LinkAll(g) && Edge(y, x) in LinkAll(g))
  {
    JsStrings.LessIsStrictTotal(x, y);
    assert LabelOf(g, x, y) == LabelOf(g, y, x);
    if x != y && LabelOf(g, x, y).Some? {
      if JsStrings.Less(x, y) {
        assert Edge(x, y) in LinkAll(g);
      } else {
        assert Edge(y, x) in LinkAll(g);
      }
    }
  }

  /** In a symmetric graph links read the same from either end. */
  lemma {:induction false} LinksReadBothWays(g: AdjMap, a: FirmId, b: FirmId)
    requires Symmetric(g) && a in g && b in g
    ensures LinkLabel(g, a, b) == LinkLabel(g, b, a)
    ensures LinkOf(g, a).Ok? && LinkOf(g, b).Ok?
    ensures b in LinkOf(g, a).value <==> a in LinkOf(g, b).value
  {
    assert LabelOf(g, a, b) == LabelOf(g, b, a);
  }

  /** Relabelling keeps a symmetric graph symmetric, whether it completes or throws. */
  lemma {:induction false} SetLinkKeepsSymmetry(g: AdjMap, f1: FirmId, ts: seq<FirmId>, lab: Option<Label>)
    requires Symmetric(g)
    ensures Symmetric(SetLink(g, f1, ts, lab).graph)
  {
    var h := SetLink(g, f1, ts, lab).graph;
    if f1 in g {
      var done := ts[..FirstUnknown(g, ts)];
      forall x, y
        ensures LabelOf(h, x, y) == LabelOf(h, y, x)
      {
        assert LabelOf(g, x, y) == LabelOf(g, y, x);
        assert Touches(f1, done, x, y) == Touches(f1, done, y, x);
      }
    }
  }

  /** After a completed relabelling, reading any touched link from either end
      gives the new label. */
  lemma {:induction false} SetLinkThenRead(g: AdjMap, f1: FirmId, ts: seq<FirmId>, lab: Option<Label>, t: FirmId)
    requires SetLink(g, f1, ts, lab).Linked? && t in ts
    ensures LinkLabel(SetLink(g, f1, ts, lab).graph, f1, t) == Ok(lab)
    ensures LinkLabel(SetLink(g, f1, ts, lab).graph, t, f1) == Ok(lab)
  {
    var h := SetLink(g, f1, ts, lab).graph;
    assert Touches(f1, ts, f1, t) && Touches(f1, ts, t, f1);
    assert LabelOf(h, f1, t) == lab && LabelOf(h, t, f1) == lab;
  }

  /** Through `link` itself: after a completed `link(f1, targets, label)`,
      `link(f1, t)` and `link(t, f1)` give the new label for every target `t`,
      and `link(f1)` lists `t` exactly when the label is truthy. */
  lemma {:induction false} RelabelThenQuery(g: AdjMap, f1: FirmId, ts: seq<FirmId>, lab: Option<Label>, t: FirmId)
    requires Link(g, Relabel(f1, ts, lab)).Relabelled? && t in ts
    ensures Link(Link(g, Relabel(f1, ts, lab)).graph, LabelBetween(f1, t)) == LabelFound(lab)
    ensures Link(Link(g, Relabel(f1, ts, lab)).graph, LabelBetween(t, f1)) == LabelFound(lab)
    ensures Link(Link(g, Relabel(f1, ts, lab)).graph, NeighborsOf(f1)).Neighbors?
    ensures t in Link(Link(g, Relabel(f1, ts, lab)).graph, NeighborsOf(f1)).ids <==> lab.Some?
  {
    var h := Link(g, Relabel(f1, ts, lab)).graph;
    assert SetLink(g, f1, ts, lab).Linked? && h == SetLink(g, f1, ts, lab).graph;
    SetLinkThenRead(g, f1, ts, lab, t);
    assert f1 in h && t in h;
    assert LabelOf(h, f1, t) == lab && LabelOf(h, t, f1) == lab;
  }
}

=== FILE: js_strings.dfy ===
/** JavaScript's relational `<` on strings, used by the network to break edge symmetry. */
module JsStrings {

  /** Lexicographic comparison: the first differing character decides, and a
      proper prefix is smaller than the string it starts. */
  predicate Less(a: string, b: string)
    decreases |a|
  {
    if |a| == 0 then |b| > 0
    else if |b| == 0 then false
    else if a[0] != b[0] then a[0] < b[0]
    else Less(a[1..], b[1..])
  }

  /** `Less` is a strict total order: never reflexive, never both ways, and
      any two distinct strings are comparable. */
  lemma {:induction false} LessIsStrictTotal(a: string, b: string)
    ensures !Less(a, a)
    ensures !(Less(a, b) && Less(b, a))
    ensures a != b <==> Less(a, b) || Less(b, a)
    decreases |a|
  {
    if |a| > 0 {
      LessIsStrictTotal(a[1..], a[1..]);
    }
    if |a| > 0 && |b| > 0 {
      LessIsStrictTotal(a[1..], b[1..]);
      if a[0] == b[0] {
        assert a == [a[0]] + a[1..] && b == [b[0]] + b[1..];
        assert a != b <==> a[1..] != b[1..];
      }
    }
  }

  /** `Less` is transitive. */
  lemma {:induction false} LessTransitive(a: string, b: string, c: string)
    requires Less(a, b) && Less(b, c)
    ensures Less(a, c)
    decreases |a|
  {
    if |a| > 0 && a[0] == b[0] && b[0] == c[0] {
      LessTransitive(a[1..], b[1..], c[1..]);
    }
  }
}

=== FILE: results.dfy ===
/** Optional values and the outcome of an operation that may throw, shared
    by every module of the model. */
module Results {

  /** An optional value; `None` also stands for JavaScript's falsy "absent" values. */
  datatype Option<+T> = None | Some(value: T)

  /** The outcome of an operation that may throw: `Err` carries the exception. */
  datatype Result<+T, +E> = Ok(value: T) | Err(error: E)
}

=== FILE: seqs.dfy ===
/** Facts about sequences shared by the hub and the network. */
module Seqs {

  /** No element occurs twice. */
  predicate Distinct<T(==)>(xs: seq<T>) {
    forall i, j :: 0 <= i < j < |xs| ==> xs[i] != xs[j]
  }
}

=== FILE: step_delay.dfy ===
/** The step-delay controller of the simulation page (controllers/simulation.js):
    a clamped integer delay between simulation ticks, adjusted in bounded steps.
    The timer, the buttons and the DOM are not part of this model. */
module StepDelay {
  import opened Results

  const MinDelay: int := 0
  const MaxDelay: int := 1000
  const DelayDelta: int := 50

  /** The controller's only state: the delay in milliseconds between ticks. */
  datatype Controller = Controller(delay: int)

  /** Payload of a `speedChange` event: the new delay and its fraction of the range. */
  datatype SpeedChange = SpeedChange(delay: int, perc: real)

  /** A new controller state with the `speedChange` events emitted on the way. */
  datatype Update = Update(controller: Controller, events: seq<SpeedChange>)

  /** The result of `increaseDelay`/`decreaseDelay`: the update and the boolean returned. */
  datatype Adjusted = Adjusted(update: Update, ok: bool)

  /** A controller as constructed: no delay. */
  const Initial: Controller := Controller(0)

  predicate InRange(d: int) {
    MinDelay <= d <= MaxDelay
  }

  /** The step a call adjusts by: the argument, or the default step when omitted. */
  function Amount(delta: Option<int>): int {
    match delta
    case Some(d) => d
    case None => DelayDelta
  }

  /** Brings a requested delay into the allowed range. */
  function Clamp(s: int): (r: int)
    ensures InRange(r)
    ensures InRange(s) ==> r == s
    ensures !InRange(s) ==> r == MinDelay || r == MaxDelay
  {
    if s < MinDelay then MinDelay else if s > MaxDelay then MaxDelay else s
  }

  /** `stepDelay(s)`: the delay becomes `s` clamped into the range; one
      `speedChange` is emitted exactly when the delay actually changes. */
  function SetDelay(c: Controller, s: int): (r: Update)
    ensures InRange(r.controller.delay)
    ensures InRange(s) ==> r.controller.delay == s
    ensures s < MinDelay ==> r.controller.delay == MinDelay
    ensures s > MaxDelay ==> r.controller.delay == MaxDelay
    ensures r.events == [] <==> r.controller == c
    ensures r.events != [] ==>
      r.events == [SpeedChange(r.controller.delay, r.controller.delay as real / (MaxDelay - MinDelay) as real)]
  {
    var s' := Clamp(s);
    if s' != c.delay then
      Update(Controller(s'), [SpeedChange(s', s' as real / (MaxDelay - MinDelay) as real)])
    else
      Update(c, [])
  }

  /** `increaseDelay(delta)`: with the delay in range, the call succeeds exactly
      when the delay moved by `delta` stays in range, and then moves it by
      exactly `delta`; a negative `delta` therefore decreases the delay. */
  function IncreaseDelay(c: Controller, delta: Option<int>): (r: Adjusted)
    ensures InRange(c.delay) ==> (r.ok <==> InRange(c.delay + Amount(delta)))
    ensures InRange(c.delay) && r.ok ==> r.update.controller.delay == c.delay + Amount(delta)
    ensures InRange(c.delay) ==> (r.update.events != [] <==> r.ok && Amount(delta) != 0)
    ensures !r.ok ==> r.update == Update(c, [])
    decreases if Amount(delta) < 0 then 1 else 0
  {
    var d := Amount(delta);
    if d < 0 then DecreaseDelay(c, Some(-d))
    else if c.delay + d > MaxDelay then Adjusted(Update(c, []), false)
    else Adjusted(SetDelay(c, c.delay + d), true)
  }

  /** `decreaseDelay(delta)`: the mirror image of `IncreaseDelay`. */
  function DecreaseDelay(c: Controller, delta: Option<int>): (r: Adjusted)
    ensures InRange(c.delay) ==> (r.ok <==> InRange(c.delay - Amount(delta)))
    ensures InRange(c.delay) && r.ok ==> r.update.controller.delay == c.delay - Amount(delta)
    ensures InRange(c.delay) ==> (r.update.events != [] <==> r.ok && Amount(delta) != 0)
    ensures !r.ok ==> r.update == Update(c, [])
    decreases if Amount(delta) < 0 then 1 else 0
  {
    var d := Amount(delta);
    if d < 0 then IncreaseDelay(c, Some(-d))
    else if c.delay - d < MinDelay then Adjusted(Update(c, []), false)
    else Adjusted(SetDelay(c, c.delay - d), true)
  }

  /** What a user or a caller can do to the controller. */
  datatype Command = SetTo(s: int) | Slower(delta: Option<int>) | Faster(delta: Option<int>)

  function Perform(c: Controller, cmd: Command): Controller {
    match cmd
    case SetTo(s) => SetDelay(c, s).controller
    case Slower(d) => IncreaseDelay(c, d).update.controller
    case Faster(d) => DecreaseDelay(c, d).update.controller
  }

  function Run(c: Controller, cmds: seq<Command>): Controller
    decreases |cmds|
  {
    if |cmds| == 0 then c else Run(Perform(c, cmds[0]), cmds[1..])
  }

  /** From any delay within [MinDelay, MaxDelay], every sequence of commands
      keeps the delay within that range. */
  lemma {:induction false} DelayStaysInRange(c: Controller, cmds: seq<Command>)
    requires InRange(c.delay)
    ensures InRange(Run(c, cmds).delay)
    decreases |cmds|
  {
    if |cmds| > 0 {
      DelayStaysInRange(Perform(c, cmds[0]), cmds[1..]);
    }
  }

  /** From construction on, every sequence of commands keeps the delay within
      [MinDelay, MaxDelay]. */
  lemma {:induction false} ConstructedDelayStaysInRange(cmds: seq<Command>)
    ensures InRange(Run(Initial, cmds).delay)
  {
    DelayStaysInRange(Initial, cmds);
  }

  /** Setting the delay twice to the same value emits nothing the second time. */
  lemma SetDelayIdempotent(c: Controller, s: int)
    ensures SetDelay(SetDelay(c, s).controller, s).events == []
    ensures SetDelay(SetDelay(c, s).controller, s).controller == SetDelay(c, s).controller
  {
  }

  /** Increasing and then decreasing by the same successful step restores the delay. */
  lemma IncreaseThenDecrease(c: Controller, d: int)
    requires InRange(c.delay)
    requires IncreaseDelay(c, Some(d)).ok
    ensures DecreaseDelay(IncreaseDelay(c, Some(d)).update.controller, Some(d)).ok
    ensures DecreaseDelay(IncreaseDelay(c, Some(d)).update.controller, Some(d)).update.controller == c
  {
  }
}

=== FILE: unemployment.dfy ===
/** The unemployment metric (metrics/unemployment.js): the running mean and
    sample variance of the network's unemployment rate, one sample per
    simulation step, optionally over a sliding window of the latest steps. */
module UnemploymentMetrics {
  import opened Results
  import opened Welford

  /** The `timeWindow` option when none is given; a window of 1 or less keeps every sample. */
  const DefaultTimeWindow: int := 0

  /** The metric's state: the running statistics, the buffered samples
      (oldest first) and the window size. */
  datatype Metrics = Metrics(acc: Acc, data: seq<real>, window: int)

  /** What `value()` returns and what a `change` event carries. */
  datatype Value = Value(mean: real, variance: real)

  /** The state after a step, and the payload of the `change` event it publishes. */
  datatype Stepped = Stepped(metrics: Metrics, change: Value)

  /** The employment totals carried by a `simulationStep` event. */
  datatype Counts = Counts(employed: nat, unemployed: nat)

  /** The statistics are those of the buffered samples, and a clipping window
      bounds the buffer. */
  predicate Valid(m: Metrics) {
    && Summarizes(m.acc, m.data)
    && (m.window > 1 ==> |m.data| <= m.window)
  }

  /** The sample count matches the buffer, and a clipping window bounds the buffer. */
  predicate Bounded(m: Metrics) {
    && m.acc.n == |m.data|
    && (m.window > 1 ==> |m.data| <= m.window)
  }

  /** The samples a window of size `w` keeps out of `s`: the latest `w` of
      them, or all of them when the window does not clip. */
  function Recent(s: seq<real>, w: int): (r: seq<real>)
    ensures w > 1 ==> |r| <= w
    ensures w > 1 && |s| >= w ==> |r| == w
    ensures w <= 1 || |s| <= w ==> r == s
    ensures r == s[|s| - |r|..]
  {
    if w > 1 && |s| > w then s[|s| - w..] else s
  }

  /** The unemployment rate of a step: the unemployed share of all workers. */
  function Rate(c: Counts): (u: real)
    requires c.employed + c.unemployed > 0
    ensures 0.0 <= u <= 1.0
    ensures u * (c.employed + c.unemployed) as real == c.unemployed as real
  {
    c.unemployed as real / (c.employed + c.unemployed) as real
  }

  /** `value()`: the running mean, and M2/(n-1) as the variance once there are
      two samples. */
  function CurrentValue(m: Metrics): (v: Value)
    ensures Summarizes(m.acc, m.data) ==> v == Value(Mean(m.data), SampleVariance(m.data))
    ensures m.acc.n <= 1 ==> v.variance == 0.0
  {
    Value(m.acc.mean, if m.acc.n > 1 then m.acc.m2 / (m.acc.n - 1) as real else 0.0)
  }

  /** `timeWindow()` with no argument: the number of samples held, which is
      not the window size. */
  function SampleCount(m: Metrics): (n: nat)
    ensures Valid(m) ==> n == |m.data|
    ensures Valid(m) && m.window > 1 ==> n <= m.window
  {
    m.acc.n
  }

  /** `reset()`: forgets every sample but keeps the window size. */
  function Reset(m: Metrics): (r: Metrics)
    ensures Valid(r)
    ensures r.data == [] && r.window == m.window
    ensures CurrentValue(r) == Value(0.0, 0.0)
  {
    Metrics(Zero, [], m.window)
  }

  /** The window part of `_onStep`: folds a sample in, buffers it, and when
      the window overflows folds the oldest sample out again. As long as the
      count matches the buffer, it keeps doing so, and the buffer is exactly
      the latest samples the window keeps. */
  function Advance(m: Metrics, u: real): (r: Metrics)
    ensures r.window == m.window
    ensures Bounded(m) ==> Bounded(r) && r.data == Recent(m.data + [u], m.window)
  {
    var acc := AddPoint(m.acc, u);
    var data := m.data + [u];
    if m.window > 1 && acc.n > m.window then Metrics(RemovePoint(acc, data[0]), data[1..], m.window)
    else Metrics(acc, data, m.window)
  }

  /** `_onStep(diff)`: one step's unemployment rate enters the window, and the
      published `change` carries the new `value()`: the mean and sample
      variance of exactly the samples the window now keeps. */
  function OnStep(m: Metrics, c: Counts): (r: Stepped)
    requires c.employed + c.unemployed > 0
    ensures r.metrics.window == m.window
    ensures r.change == CurrentValue(r.metrics)
    ensures Valid(m) ==> Valid(r.metrics)
    ensures Valid(m) ==> r.metrics.data == Recent(m.data + [Rate(c)], m.window)
    ensures Valid(m) ==> r.change == Value(Mean(r.metrics.data), SampleVariance(r.metrics.data))
  {
    var next := Advance(m, Rate(c));
    assert Valid(m) ==> Valid(next) && next.data == Recent(m.data + [Rate(c)], m.window) by {
      if Valid(m) {
        AdvanceKeepsRecentSamples(m, Rate(c));
      }
    }
    Stepped(next, CurrentValue(next))
  }

  /** The metric as constructed: reset, then one step on the network's current counts. */
  function Create(timeWindow: Option<int>, c: Counts): (r: Stepped)
    requires c.employed + c.unemployed > 0
    ensures r.metrics.window == (if timeWindow.Some? then timeWindow.value else DefaultTimeWindow)
    ensures Valid(r.metrics)
    ensures r.metrics.data == [Rate(c)]
  {
    var w := if timeWindow.Some? then timeWindow.value else DefaultTimeWindow;
    var empty := Metrics(Zero, [], w);
    AdvanceKeepsRecentSamples(empty, Rate(c));
    OnStep(empty, c)
  }

  /** Folds the oldest buffered sample out of the statistics and the buffer. */
  function DropOldest(m: Metrics): (r: Metrics)
    requires Summarizes(m.acc, m.data) && |m.data| >= 2
    ensures Summarizes(r.acc, r.data)
    ensures r.data == m.data[1..] && r.window == m.window
  {
    RemovePointDrops(m.acc, m.data, 0);
    assert m.data[..0] + m.data[1..] == m.data[1..];
    Metrics(RemovePoint(m.acc, m.data[0]), m.data[1..], m.window)
  }

  /** `timeWindow(tw)`: sets the window and, when it clips, folds the oldest
      samples out until the buffer fits. */
  method SetTimeWindow(m: Metrics, tw: int) returns (r: Metrics)
    requires Summarizes(m.acc, m.data)
    ensures r.window == tw
    ensures Valid(r)
    ensures r.data == Recent(m.data, tw)
  {
    r := Metrics(m.acc, m.data, tw);
    if tw > 1 {
      while |r.data| > tw
        invariant Summarizes(r.acc, r.data) && r.window == tw
        invariant r.data == m.data[|m.data| - |r.data|..]
        invariant |m.data| > tw ==> |r.data| >= tw
        invariant |m.data| <= tw ==> r.data == m.data
        decreases |r.data|
      {
        r := DropOldest(r);
      }
    }
  }

  // ----- Lemmas -----

  /** One step keeps the statistics exact: the window keeps the latest
      samples, and the statistics are those of the samples it keeps. */
  lemma {:induction false} AdvanceKeepsRecentSamples(m: Metrics, u: real)
    requires Valid(m)
    ensures Valid(Advance(m, u))
    ensures Advance(m, u).data == Recent(m.data + [u], m.window)
  {
    AdvanceKeepsStatistics(m, u);
  }

  /** The statistics part of one step: folding the new sample in, and the
      oldest one out when the window overflows, gives the statistics of the
      buffer. */
  lemma {:induction false} AdvanceKeepsStatistics(m: Metrics, u: real)
    requires Valid(m)
    ensures Valid(Advance(m, u))
  {
    var data := m.data + [u];
    var acc := AddPoint(m.acc, u);
    assert Summarizes(acc, data) by {
      AddPointAppends(m.acc, m.data, u);
    }
    if m.window > 1 && acc.n > m.window {
      assert Summarizes(RemovePoint(acc, data[0]), data[1..]) by {
        RemovePointDrops(acc, data, 0);
        assert data[..0] + data[1..] == data[1..];
      }
    }
  }

  /** Clipping the samples again after appending loses nothing: the window
      of the window is the window. */
  lemma {:induction false} RecentOfRecent(s: seq<real>, t: seq<real>, w: int)
    ensures Recent(Recent(s, w) + t, w) == Recent(s + t, w)
  {
    if w > 1 && |s| > w {
      var a := s[|s| - w..];
      assert Recent(s, w) == a;
      if |t| == 0 {
        assert a + t == a && s + t == s;
      } else {
        ClippedThenAppended(s, t, w);
      }
    }
  }

  /** The latest `w` samples of a clipped buffer with more samples appended
      are the latest `w` of the whole. */
  lemma {:induction false} ClippedThenAppended(s: seq<real>, t: seq<real>, w: int)
    requires w > 1 && |s| > w && |t| > 0
    ensures Recent(s[|s| - w..] + t, w) == (s + t)[|s + t| - w..]
  {
    var a, st := s[|s| - w..], s + t;
    assert a + t == st[|s| - w..];
    assert Recent(a + t, w) == (a + t)[|t|..];
    assert st[|s| - w..][|t|..] == st[|st| - w..];
  }

  /** The metric after a run of steps with the given unemployment rates. */
  function RunSteps(m: Metrics, us: seq<real>): (r: Metrics)
    ensures r.window == m.window
    decreases |us|
  {
    if |us| == 0 then m else RunSteps(Advance(m, us[0]), us[1..])
  }

  /** Over any run of steps the statistics stay those of the buffer. */
  lemma {:induction false} StepsKeepStatistics(m: Metrics, us: seq<real>)
    requires Valid(m)
    ensures Valid(RunSteps(m, us))
    decreases |us|
  {
    if |us| > 0 {
      AdvanceKeepsRecentSamples(m, us[0]);
      StepsKeepStatistics(Advance(m, us[0]), us[1..]);
    }
  }

  /** The buffer after appending each of `us` in turn and clipping to the window each time. */
  function Slide(data: seq<real>, w: int, us: seq<real>): seq<real>
    decreases |us|
  {
    if |us| == 0 then data else Slide(Recent(data + [us[0]], w), w, us[1..])
  }

  /** Clipping after every append is clipping once at the end. */
  lemma {:induction false} SlideIsRecent(data: seq<real>, w: int, us: seq<real>)
    requires w > 1 ==> |data| <= w
    ensures Slide(data, w, us) == Recent(data + us, w)
    decreases |us|
  {
    if |us| == 0 {
      assert data + us == data;
    } else {
      var grown := data + [us[0]];
      var kept := Recent(grown, w);
      calc {
        Slide(data, w, us);
        Slide(kept, w, us[1..]);
        { SlideIsRecent(kept, w, us[1..]); }
        Recent(kept + us[1..], w);
        { RecentOfRecent(grown, us[1..], w); }
        Recent(grown + us[1..], w);
        { assert grown + us[1..] == data + us; }
        Recent(data + us, w);
      }
    }
  }

  /** The buffer of a run of steps is the slide of the rates through the window. */
  lemma {:induction false} StepsSlide(m: Metrics, us: seq<real>)
    requires Bounded(m)
    ensures Bounded(RunSteps(m, us))
    ensures RunSteps(m, us).data == Slide(m.data, m.window, us)
    decreases |us|
  {
    if |us| > 0 {
      StepsSlide(Advance(m, us[0]), us[1..]);
    }
  }

  /** Over any run of steps the buffer holds exactly the most recent samples
      the window keeps, in order. */
  lemma {:induction false} StepsKeepRecentSamples(m: Metrics, us: seq<real>)
    requires Bounded(m)
    ensures Bounded(RunSteps(m, us))
    ensures RunSteps(m, us).data == Recent(m.data + us, m.window)
  {
    StepsSlide(m, us);
    SlideIsRecent(m.data, m.window, us);
  }
}

=== FILE: welford.dfy ===
/** Welford's online mean and variance over the reals: the running triple
    (n, mean, M2), its forward update, its inverse update and its
    replace-one-sample update, with the batch statistics they track. */
module Welford {

  function Id(x: real): real { x }

  function Square(x: real): real { x * x }

  /** The sum of `f` over a sequence, accumulated from the front. */
  function Total(xs: seq<real>, f: real -> real): real
    decreases |xs|
  {
    if |xs| == 0 then 0.0 else Total(xs[..|xs| - 1], f) + f(xs[|xs| - 1])
  }

  function Sum(xs: seq<real>): real {
    Total(xs, Id)
  }

  function SumSq(xs: seq<real>): real {
    Total(xs, Square)
  }

  /** The batch mean; 0 for no samples. */
  function Mean(xs: seq<real>): real {
    if |xs| == 0 then 0.0 else Sum(xs) / |xs| as real
  }

  /** The sum of squared deviations of the samples from `c`. */
  function SqDev(xs: seq<real>, c: real): real
    decreases |xs|
  {
    if |xs| == 0 then 0.0
    else SqDev(xs[..|xs| - 1], c) + (xs[|xs| - 1] - c) * (xs[|xs| - 1] - c)
  }

  /** The batch sample variance; 0 for fewer than two samples. */
  function SampleVariance(xs: seq<real>): real {
    if |xs| > 1 then SqDev(xs, Mean(xs)) / (|xs| - 1) as real else 0.0
  }

  /** The running state: the sample count, the mean and the sum of squared deviations. */
  datatype Acc = Acc(n: nat, mean: real, m2: real)

  const Zero: Acc := Acc(0, 0.0, 0.0)

  /** `a` holds the exact statistics of the samples `xs`. */
  predicate Summarizes(a: Acc, xs: seq<real>) {
    && a.n == |xs|
    && a.mean == Mean(xs)
    && a.m2 == SqDev(xs, Mean(xs))
  }

  /** `a` holds the statistics of `n` samples whose sum is `s` and whose sum
      of squares is `q`. */
  predicate Moments(a: Acc, n: nat, s: real, q: real) {
    && a.n == n
    && a.mean * n as real == s
    && a.m2 == q - s * a.mean
    && (n == 0 ==> a.mean == 0.0)
  }

  /** `_addPoint(x)`: folds one more sample in. The count grows by one and
      the running sum, mean times count, grows by exactly `x`. */
  function AddPoint(a: Acc, x: real): (r: Acc)
    ensures r.n == a.n + 1
    ensures r.mean * r.n as real == a.mean * a.n as real + x
  {
    var n := a.n + 1;
    var delta := x - a.mean;
    var mean := a.mean + delta / n as real;
    assert mean * n as real == a.mean * n as real + delta;
    Acc(n, mean, a.m2 + delta * (x - mean))
  }

  /** `_removePoint(x)`: folds a sample out. The count drops by one and the
      running sum drops by exactly `x`. Both callers in unemployment.js,
      `_onStep` and `timeWindow(tw)`, remove only while the samples outnumber
      a `timeWindow` above 1, so the count is at least two and the division
      is by a positive count. */
  function RemovePoint(a: Acc, x: real): (r: Acc)
    requires a.n >= 2
    ensures r.n == a.n - 1
    ensures r.mean * r.n as real == a.mean * a.n as real - x
  {
    var n := a.n - 1;
    var delta := x - a.mean;
    var mean := a.mean - delta / n as real;
    assert mean * n as real == a.mean * n as real - delta;
    Acc(n, mean, a.m2 - delta * (x - mean))
  }

  /** `_updatePoint(oldX, newX)`: replaces one sample by another. The count
      stays and the running sum moves by exactly `newX - oldX`. */
  function UpdatePoint(a: Acc, oldX: real, newX: real): (r: Acc)
    requires a.n >= 1
    ensures r.n == a.n
    ensures r.mean * r.n as real == a.mean * a.n as real - oldX + newX
  {
    var delta := newX - oldX;
    var dold := oldX - a.mean;
    var mean := a.mean + delta / a.n as real;
    var dnew := newX - mean;
    assert mean * a.n as real == a.mean * a.n as real + delta;
    Acc(a.n, mean, a.m2 + delta * (dold + dnew))
  }

  // ----- Sums -----

  lemma {:induction false} TotalConcat(xs: seq<real>, ys: seq<real>, f: real -> real)
    ensures Total(xs + ys, f) == Total(xs, f) + Total(ys, f)
    decreases |ys|
  {
    if |ys| == 0 {
      assert xs + ys == xs;
    } else {
      var init := ys[..|ys| - 1];
      TotalConcat(xs, init, f);
      var zs := xs + ys;
      assert zs[..|zs| - 1] == xs + init;
      assert zs[|zs| - 1] == ys[|ys| - 1];
    }
  }

  lemma {:induction false} TotalSingle(x: real, f: real -> real)
    ensures Total([x], f) == f(x)
  {
    assert [x][..0] == [];
  }

  /** Removing the element at position `i` removes exactly its term. */
  lemma {:induction false} TotalWithout(xs: seq<real>, i: nat, f: real -> real)
    requires i < |xs|
    ensures Total(xs[..i] + xs[i + 1..], f) == Total(xs, f) - f(xs[i])
  {
    var pre, post := xs[..i], xs[i + 1..];
    assert xs == (pre + [xs[i]]) + post;
    TotalConcat(pre, post, f);
    TotalConcat(pre + [xs[i]], post, f);
    TotalConcat(pre, [xs[i]], f);
    TotalSingle(xs[i], f);
  }

  /** Removing the sample at position `i` lowers the sum and the sum of squares by its share. */
  lemma {:induction false} SumsWithout(xs: seq<real>, i: nat)
    requires i < |xs|
    ensures Sum(xs[..i] + xs[i + 1..]) == Sum(xs) - xs[i]
    ensures SumSq(xs[..i] + xs[i + 1..]) == SumSq(xs) - Square(xs[i])
  {
    TotalWithout(xs, i, Id);
    TotalWithout(xs, i, Square);
  }

  /** Replacing the sample at position `i` changes the sums by the difference. */
  lemma {:induction false} SumsReplaced(xs: seq<real>, i: nat, v: real)
    requires i < |xs|
    ensures Sum(xs[i := v]) == Sum(xs) - xs[i] + v
    ensures SumSq(xs[i := v]) == SumSq(xs) - Square(xs[i]) + Square(v)
  {
    var ys := xs[i := v];
    assert ys[..i] + ys[i + 1..] == xs[..i] + xs[i + 1..];
    SumsWithout(xs, i);
    SumsWithout(ys, i);
  }

  lemma {:induction false} ExpandStep(q0: real, s0: real, k: real, c: real, x: real)
    ensures (q0 - 2.0 * c * s0 + k * c * c) + (x - c) * (x - c)
         == (q0 + x * x) - 2.0 * c * (s0 + x) + (k + 1.0) * c * c
  {
  }

  /** The last sample's share of each batch quantity. */
  lemma {:induction false} UnfoldLast(xs: seq<real>, c: real)
    requires |xs| > 0
    ensures Sum(xs) == Sum(xs[..|xs| - 1]) + xs[|xs| - 1]
    ensures SqDev(xs, c) == SqDev(xs[..|xs| - 1], c) + (xs[|xs| - 1] - c) * (xs[|xs| - 1] - c)
    ensures SumSq(xs) == SumSq(xs[..|xs| - 1]) + xs[|xs| - 1] * xs[|xs| - 1]
  {
  }

  /** Squared deviations expand into the count, the sum and the sum of squares. */
  lemma {:induction false} SqDevExpand(xs: seq<real>, c: real)
    ensures SqDev(xs, c) == SumSq(xs) - 2.0 * c * Sum(xs) + |xs| as real * c * c
    decreases |xs|
  {
    if |xs| > 0 {
      var init, x := xs[..|xs| - 1], xs[|xs| - 1];
      SqDevExpand(init, c);
      UnfoldLast(xs, c);
      ExpandStep(SumSq(init), Sum(init), |init| as real, c, x);
    }
  }

  lemma {:induction false} MeanDeviation(n: real, s: real, q: real, m: real)
    requires n > 0.0 && m * n == s
    ensures q - 2.0 * m * s + n * m * m == q - s * m
  {
    assert n * m * m == s * m;
  }

  lemma {:induction false} DivisionByCount(n: real, s: real, m: real)
    requires n > 0.0
    ensures m == s / n <==> m * n == s
  {
  }

  /** The running-state facts, for any count, sum, sum of squares, mean and
      squared deviation related as in a batch of samples. */
  lemma {:induction false} MomentsOfBatch(a: Acc, n: nat, s: real, q: real, m: real, sd: real)
    requires n == 0 ==> s == 0.0 && q == 0.0 && m == 0.0 && sd == 0.0
    requires n > 0 ==> m == s / n as real && sd == q - 2.0 * m * s + n as real * m * m
    ensures (a.n == n && a.mean == m && a.m2 == sd) <==> Moments(a, n, s, q)
  {
    if n > 0 {
      var nn := n as real;
      DivisionByCount(nn, s, m);
      DivisionByCount(nn, s, a.mean);
      MeanDeviation(nn, s, q, m);
    }
  }

  lemma {:induction false} EmptyBatch(xs: seq<real>)
    ensures |xs| == 0 ==> Sum(xs) == 0.0 && SumSq(xs) == 0.0 && Mean(xs) == 0.0 && SqDev(xs, Mean(xs)) == 0.0
  {
  }

  lemma {:induction false} BatchMoments(xs: seq<real>)
    ensures |xs| > 0 ==> Mean(xs) == Sum(xs) / |xs| as real
    ensures SqDev(xs, Mean(xs)) == SumSq(xs) - 2.0 * Mean(xs) * Sum(xs) + |xs| as real * Mean(xs) * Mean(xs)
  {
    SqDevExpand(xs, Mean(xs));
  }

  /** The two descriptions of the running state agree. */
  lemma {:induction false} SummarizesIffMoments(a: Acc, xs: seq<real>)
    ensures Summarizes(a, xs) <==> Moments(a, |xs|, Sum(xs), SumSq(xs))
  {
    var m := Mean(xs);
    var s, q, sd := Sum(xs), SumSq(xs), SqDev(xs, m);
    EmptyBatch(xs);
    BatchMoments(xs);
    MomentsOfBatch(a, |xs|, s, q, m, sd);
  }

  // ----- The update algebra -----

  lemma {:induction false} AddStep(m: real, s: real, q: real, x: real, nn: real, d: real)
    requires nn >= 1.0 && m + s == m * nn && d * nn == x - m
    ensures (m + d) * nn == s + x
    ensures (q - s * m) + (x - m) * (x - (m + d)) == q + x * x - (s + x) * (m + d)
  {
    assert (m + d) * nn == m * nn + d * nn;
    assert d * (m + s) == m * (x - m) by {
      assert d * (m * nn) == m * (d * nn);
    }
  }

  lemma {:induction false} AddMoments(a: Acc, n: nat, s: real, q: real, x: real)
    requires Moments(a, n, s, q)
    ensures Moments(AddPoint(a, x), n + 1, s + x, q + Square(x))
  {
    var m := a.mean;
    var nn := (n + 1) as real;
    var d := (x - m) / nn;
    assert d * nn == x - m;
    assert m + s == m * nn;
    AddStep(m, s, q, x, nn, d);
  }

  lemma {:induction false} RemoveStep(m: real, s: real, q: real, x: real, nn: real, d: real)
    requires nn >= 1.0 && s - m == m * nn && d * nn == x - m
    ensures (m - d) * nn == s - x
    ensures (q - s * m) - (x - m) * (x - (m - d)) == q - x * x - (s - x) * (m - d)
  {
    assert (m - d) * nn == m * nn - d * nn;
    assert d * (s - m) == m * (x - m) by {
      assert d * (m * nn) == m * (d * nn);
    }
  }

  lemma {:induction false} RemoveMoments(a: Acc, n: nat, s: real, q: real, x: real)
    requires n >= 2 && Moments(a, n, s, q)
    ensures Moments(RemovePoint(a, x), n - 1, s - x, q - Square(x))
  {
    var m := a.mean;
    var nn := (n - 1) as real;
    var d := (x - m) / nn;
    assert d * nn == x - m;
    assert s - m == m * nn;
    RemoveStep(m, s, q, x, nn, d);
  }

  lemma {:induction false} UpdateMoments(a: Acc, n: nat, s: real, q: real, oldX: real, newX: real)
    requires n >= 1 && Moments(a, n, s, q)
    ensures Moments(UpdatePoint(a, oldX, newX), n, s - oldX + newX, q - Square(oldX) + Square(newX))
  {
    var m := a.mean;
    var nn := n as real;
    var delta := newX - oldX;
    var d := delta / nn;
    var r := UpdatePoint(a, oldX, newX);
    assert r.mean == m + d;
    assert d * nn == delta;
    assert r.mean * nn == s + delta by {
      assert (m + d) * nn == m * nn + d * nn;
    }
    assert s * d == m * delta by {
      assert s * d == m * (d * nn);
    }
    assert r.m2 == q - oldX * oldX + newX * newX - (s + delta) * r.mean by {
      assert r.m2 == q - s * m + delta * (oldX - m + newX - m - d);
      assert delta * (oldX + newX) == newX * newX - oldX * oldX;
      assert (s + delta) * (m + d) == s * m + s * d + delta * m + delta * d;
    }
  }

  // ----- What the updates mean for the samples -----

  /** `_addPoint(x)` turns the statistics of `xs` into those of `xs + [x]`. */
  lemma {:induction false} AddPointAppends(a: Acc, xs: seq<real>, x: real)
    requires Summarizes(a, xs)
    ensures Summarizes(AddPoint(a, x), xs + [x])
  {
    var ys := xs + [x];
    SummarizesIffMoments(a, xs);
    AddMoments(a, |xs|, Sum(xs), SumSq(xs), x);
    UnfoldLast(ys, 0.0);
    assert ys[..|ys| - 1] == xs;
    SummarizesIffMoments(AddPoint(a, x), ys);
  }

  /** `_removePoint(x)` of any one sample `x == xs[i]` turns the statistics of
      `xs` into those of `xs` without that sample. */
  lemma {:induction false} RemovePointDrops(a: Acc, xs: seq<real>, i: nat)
    requires |xs| >= 2 && i < |xs| && Summarizes(a, xs)
    ensures Summarizes(RemovePoint(a, xs[i]), xs[..i] + xs[i + 1..])
  {
    var x, ys := xs[i], xs[..i] + xs[i + 1..];
    var r := RemovePoint(a, x);
    assert Moments(a, |xs|, Sum(xs), SumSq(xs)) by {
      SummarizesIffMoments(a, xs);
    }
    assert Moments(r, |ys|, Sum(ys), SumSq(ys)) by {
      RemoveMoments(a, |xs|, Sum(xs), SumSq(xs), x);
      SumsWithout(xs, i);
    }
    SummarizesIffMoments(r, ys);
  }

  /** `_updatePoint(xs[i], v)` turns the statistics of `xs` into those of `xs`
      with the sample at `i` replaced by `v`. */
  lemma {:induction false} UpdatePointReplaces(a: Acc, xs: seq<real>, i: nat, v: real)
    requires i < |xs| && Summarizes(a, xs)
    ensures Summarizes(UpdatePoint(a, xs[i], v), xs[i := v])
  {
    var x, ys := xs[i], xs[i := v];
    SummarizesIffMoments(a, xs);
    UpdateMoments(a, |xs|, Sum(xs), SumSq(xs), x, v);
    SumsReplaced(xs, i, v);
    SummarizesIffMoments(UpdatePoint(a, x, v), ys);
  }

  /** How each update changes M2, in terms of the old and the new mean. */
  lemma {:induction false} UpdateM2(a: Acc, x: real)
    ensures AddPoint(a, x).m2 == a.m2 + (x - a.mean) * (x - AddPoint(a, x).mean)
    ensures a.n >= 2 ==> RemovePoint(a, x).m2 == a.m2 - (x - a.mean) * (x - RemovePoint(a, x).mean)
  {
  }

  /** A state whose count and mean are back, and whose M2 took a product out
      and added it back in the other order, is the original state. */
  lemma {:induction false} Restored(a: Acc, c: Acc, sign: real, p: real, q: real, mid: real)
    requires c.n == a.n && c.mean == a.mean
    requires mid == a.m2 + sign * p * q && c.m2 == mid - sign * q * p
    ensures c == a
  {
  }

  /** The mean part of `RemoveUndoesAdd`: folding `x` out again brings the mean back. */
  lemma {:induction false} RemoveAfterAddMean(a: Acc, x: real)
    requires a.n >= 1
    ensures RemovePoint(AddPoint(a, x), x).mean == a.mean
  {
    var m, nn := a.mean, a.n as real;
    var d := (x - m) / (nn + 1.0);
    assert AddPoint(a, x).mean == m + d;
    assert d * (nn + 1.0) == x - m;
    DivisionByCount(nn, (x - m) - d, d);
  }

  /** The mean part of `AddUndoesRemove`: folding `x` back in brings the mean back. */
  lemma {:induction false} AddAfterRemoveMean(a: Acc, x: real)
    requires a.n >= 2
    ensures AddPoint(RemovePoint(a, x), x).mean == a.mean
  {
    var m, nn := a.mean, (a.n - 1) as real;
    var d := (x - m) / nn;
    assert RemovePoint(a, x).mean == m - d;
    assert d * nn == x - m;
    DivisionByCount(nn + 1.0, (x - m) + d, d);
  }

  /** The inverse update undoes the forward update, whatever the state. */
  lemma {:induction false} RemoveUndoesAdd(a: Acc, x: real)
    requires a.n >= 1
    ensures RemovePoint(AddPoint(a, x), x) == a
  {
    var b := AddPoint(a, x);
    var c := RemovePoint(b, x);
    RemoveAfterAddMean(a, x);
    UpdateM2(a, x);
    UpdateM2(b, x);
    Restored(a, c, 1.0, x - a.mean, x - b.mean, b.m2);
  }

  /** The forward update undoes the inverse update. */
  lemma {:induction false} AddUndoesRemove(a: Acc, x: real)
    requires a.n >= 2
    ensures AddPoint(RemovePoint(a, x), x) == a
  {
    var b := RemovePoint(a, x);
    var c := AddPoint(b, x);
    AddAfterRemoveMean(a, x);
    UpdateM2(a, x);
    UpdateM2(b, x);
    Restored(a, c, -1.0, x - a.mean, x - b.mean, b.m2);
  }
}
